=== FILE: README.md ===
# Calendar ledger: the entry store and its monthly total

A Dafny model of the state logic of a calendar ledger app. The user picks a day and records signed
entries against it. Each entry is a credit (`add`) or a debit (`subtract`). A panel below the day's
entries shows the running total of the displayed month. The app keeps every entry in one store that maps a day to the
ordered list of that day's entries. Every change replaces the store with a new one:

- adding appends an entry to the selected day's list, and creates the list if the day has none;
- deleting filters the selected day's list by entry id, and drops the day's key once its list is empty;
- the monthly total folds over every stored day of the displayed year and month. An `add` entry
  counts `+value` and a `subtract` entry counts `-value`;
- the header's buttons step the displayed month back or forward, and carry the year over across
  December/January.

Modules, one per concern:

- `CalendarMonth` (calendar.dfy): the day key, the displayed month and month stepping.
- `LedgerTypes` (types.dfy): operation types and their string tags, entries, the store type.
- `LedgerStore` (store.dfy): lookup, add, submit, delete, and the store invariant that no day has an
  empty list.
- `LedgerTotal` (total.dfy): the monthly total. `MonthSum` is a reference sum over the set of stored
  days. `MonthlyTotal` is the app's fold over an enumeration of the days. The two are proved equal
  for every enumeration order.
- `LedgerPersistence` (persistence.dfy): the saved snapshot and the round trip through save and load.
- `LedgerScenarios` (scenarios.dfy): worked sessions on concrete dates.

A day is the abstract triple (year, month, day), with months numbered 0 to 11 as the app's date
objects number them. Amounts are `real` numbers. An entry's id is an input to the model.

## Model

| member | source | states |
|---|---|---|
| `LedgerTypes.Tag` | types.ts:3-4 | An operation is stored as one of the two enum strings `add` and `subtract`. The tag is `add` exactly for Add, so the two operations get distinct tags. |
| `LedgerTypes.ParseTag` | types.ts:2-5 | Reading a tag yields an operation exactly when the string is the tag of some operation, and that operation's tag is the string. Any other string is rejected. |
| `LedgerTypes.TagRoundTrip` | types.ts:3-4 | Reading an operation's tag gives back that operation. The tags `add` and `subtract` differ. |
| `LedgerStore.EntriesFor` | App.tsx:121 | Lookup with an empty-list default. A stored day reads as its list, an absent day as no entries. These clauses are the definition; the consequences are stated in `PresentIffNonEmpty`, `AddEntry` and `DeleteEntry`. |
| `LedgerStore.PresentIffNonEmpty` | App.tsx:121 | The entries shown for a day are the stored list, or nothing if the day has no key. Under the store invariant, a day has a key exactly when it has entries to show. |
| `LedgerStore.AddEntry` | App.tsx:76-87 | The day gets a key. Its list grows by one, the new entry is last, and the earlier entries keep their order. A day without entries gets a one-element list. Every other day is unchanged. No-empty-days is preserved. |
| `LedgerStore.SubmitEntry` | components/DayDetail.tsx:34-41 | An amount that does not parse, or is zero, leaves the store unchanged. Any other amount appends one entry carrying that amount and operation to the selected day and changes no other day. |
| `LedgerStore.RemoveById` | App.tsx:92 | The kept entries are exactly those whose id differs from the given id, so every duplicate of that id goes. The kept count plus the number of entries carrying the id equals the original length. |
| `LedgerStore.RemoveByIdAppend` | App.tsx:92 | Filtering distributes over concatenation, so kept entries stay in their original relative order. |
| `LedgerStore.RemoveByIdAbsent` | App.tsx:92 | A list with no entry carrying the id passes the filter unchanged. |
| `LedgerStore.RemoveByIdIdempotent` | App.tsx:92 | Filtering by the same id twice is the same as filtering once. |
| `LedgerStore.DeleteEntry` | App.tsx:89-101 | Other days keep their keys and lists. The selected day shows exactly the filtered list. Its key stays iff that list is non-empty, so a present key never holds an empty list and no-empty-days is preserved. |
| `LedgerStore.DeleteAbsentIsNoOp` | App.tsx:92-99 | Deleting an id the day does not hold, or deleting on a day without a key, returns the same store. The only condition is that the selected day, if stored, has a non-empty list. |
| `LedgerStore.DeleteIdempotent` | App.tsx:89-101 | Deleting the same id a second time changes nothing. |
| `LedgerStore.DeleteUniqueRemovesOne` | App.tsx:92 | When exactly one of the day's entries carries the id, the day's list shrinks by exactly one. |
| `LedgerStore.RemoveAppendedFresh` | App.tsx:92 | Filtering out the id of an entry appended to a list that lacked that id gives back the list. |
| `LedgerStore.DeleteUndoesAdd` | App.tsx:83-98 | Suppose the added entry's id is fresh for its day, and the day, if stored, has a non-empty list. Then deleting by that id restores the store before the add, including removing a key the add created. |
| `LedgerTotal.FoldDay` | App.tsx:110-115 | Folding a day's entries into a running total adds that day's signed sum to the running total. |
| `LedgerTotal.SignedSumAppend` | App.tsx:110-115 | The signed sum of two concatenated lists is the sum of their signed sums. |
| `LedgerTotal.SumKeysRemove` | App.tsx:107-118 | The sum over a set of days does not depend on which day is taken first. |
| `LedgerTotal.FoldMonth` | App.tsx:107-118 | The outer reduce, seeded with a running total, skips days outside the month. It adds the signed sum of the month's entries in the order the days are visited, each day's list oldest first. |
| `LedgerTotal.FoldMonthIsSum` | App.tsx:107-118 | Folding over a list of distinct days adds exactly the sum of the month contributions of those days. |
| `LedgerTotal.MonthlyTotal` | App.tsx:103-119 | For any order that lists every stored day once, the computed total equals the sum, over the stored days of the displayed year and month, of `+value` for `add` entries and `-value` for the others. |
| `LedgerTotal.MonthSumEmptyMonth` | App.tsx:103-119 | A month in which no stored day falls totals zero. |
| `LedgerTotal.MonthSumUpdate` | App.tsx:107-118 | Replacing one day's list changes the total only by the change in that day's contribution. |
| `LedgerTotal.MonthSumRemove` | App.tsx:107-118 | Removing one day's key lowers the total by exactly that day's contribution. |
| `LedgerTotal.AddShiftsTotal` | App.tsx:103-119 | An entry added on a day of the displayed month moves the total by `+value` (add) or `-value` (subtract). An entry added on any other day leaves the total unchanged. |
| `LedgerTotal.SignedSumSplit` | App.tsx:92 | A day's signed sum is the signed sum of the entries a delete keeps plus the signed sum of the entries carrying the deleted id. |
| `LedgerTotal.DeleteShiftsTotal` | App.tsx:103-119 | A delete on a day of the displayed month moves the total by the drop in that day's signed sum, which is minus the signed sum of the removed entries (those carrying the id). A delete on any other day leaves the total unchanged. |
| `CalendarMonth.InMonth` | App.tsx:109 | A day is in the displayed month when year and month both match. For month numbers in 0..11 this is the same as the day's month index being the displayed month's index. |
| `CalendarMonth.Normalize` | App.tsx:65 | A month number outside 0..11 carries into the year. The result is a valid month with the same month index. |
| `CalendarMonth.PrevMonth` | App.tsx:64-66 | The previous month is a valid month whose index is one less. |
| `CalendarMonth.NextMonth` | App.tsx:68-70 | The next month is a valid month whose index is one more. |
| `CalendarMonth.MonthIndexInjective` | App.tsx:64-70 | Two valid months with the same index are the same month. |
| `CalendarMonth.NavigationRoundTrip` | App.tsx:64-70 | Next then previous, or previous then next, returns to the displayed month. |
| `CalendarMonth.NavigationYearWrap` | App.tsx:64-70 | Stepping forward from December gives January of the next year. Stepping back from January gives December of the previous year. |
| `CalendarMonth.NavigationWithinYear` | App.tsx:64-70 | Away from December/January, stepping keeps the year and moves the month by one. |
| `LedgerPersistence.DecodeEntry` | App.tsx:31-48 | Reading a stored entry fails exactly when its tag names no operation. A successful read re-encodes to the stored entry. |
| `LedgerPersistence.EncodeDay` | App.tsx:44 | A day's stored list has the same length, and each position holds the entry at that position, encoded with its tag. |
| `LedgerPersistence.DecodeDay` | App.tsx:35 | Reading a day's stored list fails exactly when some entry has an unknown tag. A successful read encodes back to the stored list. |
| `LedgerPersistence.DecodeEncodeDay` | App.tsx:31-48 | Reading back a day's encoded list gives the same entries in the same order. |
| `LedgerPersistence.Save` | App.tsx:42-48 | The snapshot has exactly the store's days. Each day's list has the same length and holds each entry encoded at its position. |
| `LedgerPersistence.Load` | App.tsx:31-40 | Reading a snapshot fails exactly when some stored entry has an unknown tag. A snapshot that reads back has the same days and is the snapshot of the store it reads to. |
| `LedgerPersistence.DecodeSavedDays` | App.tsx:31-48 | Every day of a saved store reads back to that day's list of entries. |
| `LedgerPersistence.SaveLoadRoundTrip` | App.tsx:31-48 | Loading the snapshot of a store gives that store back. |
| `LedgerPersistence.SaveKeepsNoEmptyDays` | App.tsx:42-48 | Under the store invariant, the snapshot holds no day with an empty list. |
| `LedgerPersistence.Hydrate` | App.tsx:31-48 | Once the loaded store is in place, the save made for it writes back the snapshot that was read, whenever it could be read. A non-empty starting store always came from the snapshot in the slot. |
| `LedgerPersistence.HydrateSaved` | App.tsx:31-48 | A session that starts from a store's snapshot starts with that store. |
| `LedgerScenarios.MarchTotal` | App.tsx:103-119 | Day 2024-03-05 holds +100 and day 2024-03-20 holds -30. March 2024 totals 70 and April 2024 totals 0. |
| `LedgerScenarios.JuneSession` | App.tsx:76-119 | On 2024-06-10, a credit of 50 and then a debit of 20 are stored in that order, and June 2024 totals 30. |
| `LedgerScenarios.AdjacentDaysStaySeparate` | App.tsx:76-119 | Entries on 2024-01-31 and 2024-02-01 stay under distinct days, and each counts only towards its own month. |
| `LedgerScenarios.DeleteLastEntryRemovesDay` | App.tsx:89-119 | On a day with no key, adding an entry and deleting it removes the day's key again and restores the store, with no condition on other days. The month's total returns to its value before the add. |

## Left out

- Rendering: the calendar grid, the day panel, the header, the total display and the theme toggle are
  presentation only (components/*.tsx). The only part kept is the entry form's guard, in `SubmitEntry`.
- Date keys and time zones: the app makes a day's key from the UTC date of a local date object
  (App.tsx:10-12). The total then re-parses that key as UTC and reads it back with local year/month
  accessors (App.tsx:108-109). Near midnight or a month edge, a day can land in the wrong key or
  month. The model uses an abstract (year, month, day) key instead and does not reproduce this.
- CalendarMonth.Normalize: carries the month into the year arithmetically for every integer year.
  The app's date constructor (App.tsx:65, 69) reads a year argument of 0..99 as 1900 + year. It also
  gives an invalid date outside the years -271,821 to 275,760 (100,000,000 days either side of 1970),
  after which stepping stays stuck.
  Neither behaviour is modelled.
- CalendarMonth.PrevMonth: steps back arithmetically for every integer year. In the app, stepping
  back from a month of year 99 gives a month of 1998 or 1999, not of year 98 or 99.
- CalendarMonth.NextMonth: steps forward arithmetically for every integer year. In the app, stepping
  forward from December of year 99 gives January 2000, not January of year 100.
  `NavigationRoundTrip` and `NavigationYearWrap` are therefore properties of the model that the app
  does not have for the months of years 0 to 99, for January of year 100 and December of year -1
  (round trip only), and from the first and last months of the valid date range outwards. Other
  negative years step correctly in the app.
- Calendar grid arithmetic (components/Calendar.tsx:20-21) depends on the host date library.
- Month stepping also resets the displayed date to day 1 of the month (App.tsx:65, 69). Only the
  (year, month) pair is modelled, because the total and the header read only that pair.
- Entry ids: the app takes the current clock time as the id (App.tsx:79). Such ids can collide.
  The model takes the id as an input, assumes no uniqueness, and handles duplicate ids in delete
  (all of them go).
- Floating point: amounts are exact reals. Rounding in the accumulation, and `parseFloat`, are not
  modelled. In `SubmitEntry`, a failed parse (NaN) is `None`.
- Storage I/O and JSON text: localStorage, `JSON.stringify`/`JSON.parse` and the console logging of
  failures (App.tsx:31-48) are left out. A snapshot is modelled as a map of encoded entries, and an
  unreadable one as a failed `Load`. The app does not check the tag of a loaded entry, and the total
  counts any non-`add` tag as a subtraction. `Load` instead rejects an unknown tag, and the session
  then starts empty.
- LedgerPersistence.Hydrate: on mount, the first save writes the initial empty store (App.tsx:19,
  42-48). That happens before the loaded store is set and saved again. This interim write is not
  modelled, and neither is the loss of saved entries if the session ends in that gap.
- Theme persistence and the theme preference query (App.tsx:20-29, 50-62) are presentation.
- The service worker (sw.js) caches assets for offline use. It is asynchronous browser I/O.
- LedgerStore.AddEntry: requires a non-zero amount. `handleAddEntry` does not check this itself;
  its only caller, the entry form, filters zero and NaN out first (components/DayDetail.tsx:37).
- LedgerStore.DeleteAbsentIsNoOp: requires that the selected day, if stored, has a non-empty list.
  If that day held an empty list, the app's delete would remove the key, so it would not be a no-op.
  A loaded snapshot can hold such a list, because loading does not check for one.
- LedgerTotal.MonthlyTotal: takes the order of the stored days as an argument that must list every
  stored day once. The app's key enumeration order is not modelled, and the result does not depend
  on it.

=== FILE: calendar.dfy ===
/**
 Calendar components the ledger works with: the key of a day and the
 (year, month) pair the header displays, with the month stepping of the
 header's previous/next buttons.

 Months are numbered from 0 (January) to 11 (December), the numbering the
 application's date objects use for the displayed month.
 */
module CalendarMonth {

  /** A calendar day, used as the key under which that day's entries are stored. */
  datatype DayKey = DayKey(year: int, month: int, day: int)

  /** The displayed month. */
  datatype YearMonth = YearMonth(year: int, month: int)

  /** A month number in the range a date object reports. */
  predicate ValidMonth(ym: YearMonth) {
    0 <= ym.month < 12
  }

  /** Months elapsed since January of year 0: consecutive months have consecutive indices. */
  function MonthIndex(ym: YearMonth): int {
    12 * ym.year + ym.month
  }

  /**
   True iff the day lies in the displayed month, comparing the year and the
   month separately. For valid month numbers this is the same as the day's
   month having the displayed month's index.
   */
  function InMonth(k: DayKey, ym: YearMonth): (b: bool)
    ensures b ==> 12 * k.year + k.month == MonthIndex(ym)
    ensures 0 <= k.month < 12 && ValidMonth(ym) ==> (b <==> 12 * k.year + k.month == MonthIndex(ym))
  {
    k.year == ym.year && k.month == ym.month
  }

  /** Two valid months with the same index are the same month. */
  lemma MonthIndexInjective(a: YearMonth, b: YearMonth)
    requires ValidMonth(a) && ValidMonth(b)
    requires MonthIndex(a) == MonthIndex(b)
    ensures a == b
  {
  }

  /**
   Builds the month (year, month) where `month` may lie outside 0..11, carrying
   whole years into the year (month -1 is December of the year before, month 12
   is January of the year after). This is the carry a date constructed from an
   out-of-range month performs, stated arithmetically for every integer year:
   the date constructor's reading of years 0..99 as 1900 + year and its
   invalid-date range are not modelled.
   */
  function Normalize(year: int, month: int): (r: YearMonth)
    ensures ValidMonth(r)
    ensures MonthIndex(r) == 12 * year + month
  {
    YearMonth(year + month / 12, month % 12)
  }

  /** The month before the displayed one. */
  function PrevMonth(ym: YearMonth): (r: YearMonth)
    ensures ValidMonth(r)
    ensures MonthIndex(r) == MonthIndex(ym) - 1
  {
    Normalize(ym.year, ym.month - 1)
  }

  /** The month after the displayed one. */
  function NextMonth(ym: YearMonth): (r: YearMonth)
    ensures ValidMonth(r)
    ensures MonthIndex(r) == MonthIndex(ym) + 1
  {
    Normalize(ym.year, ym.month + 1)
  }

  /** Stepping forward then back, or back then forward, returns to the displayed month. */
  lemma NavigationRoundTrip(ym: YearMonth)
    requires ValidMonth(ym)
    ensures NextMonth(PrevMonth(ym)) == ym
    ensures PrevMonth(NextMonth(ym)) == ym
  {
  }

  /** Stepping across a year boundary changes the year: December wraps to January and back. */
  lemma NavigationYearWrap(year: int)
    ensures NextMonth(YearMonth(year, 11)) == YearMonth(year + 1, 0)
    ensures PrevMonth(YearMonth(year, 0)) == YearMonth(year - 1, 11)
  {
  }

  /** Within a year, stepping keeps the year and moves the month number by one. */
  lemma NavigationWithinYear(ym: YearMonth)
    requires ValidMonth(ym)
    ensures ym.month < 11 ==> NextMonth(ym) == YearMonth(ym.year, ym.month + 1)
    ensures 0 < ym.month ==> PrevMonth(ym) == YearMonth(ym.year, ym.month - 1)
  {
  }
}

=== FILE: persistence.dfy ===
/**
 The stored snapshot of the entry store: each entry is written with its
 operation as a string tag, the whole store is rewritten after every change,
 and it is read back once at start-up. The text encoding of the snapshot and
 the storage slot itself are outside this model; a snapshot that cannot be
 read is represented by a failed `Load`.
 */
module LedgerPersistence {
  import opened CalendarMonth
  import opened LedgerTypes
  import opened LedgerStore

  /** An entry as stored: the operation is kept as its tag. */
  datatype RawEntry = RawEntry(id: string, value: real, tag: string)

  type RawEntries = map<DayKey, seq<RawEntry>>

  function EncodeEntry(e: Entry): RawEntry {
    RawEntry(e.id, e.value, Tag(e.op))
  }

  /** Reads a stored entry back; fails exactly when its tag names no operation. */
  function DecodeEntry(raw: RawEntry): (r: Option<Entry>)
    ensures r.None? <==> ParseTag(raw.tag).None?
    ensures r.Some? ==> EncodeEntry(r.value) == raw
  {
    match ParseTag(raw.tag)
    case Some(op) => Some(Entry(raw.id, raw.value, op))
    case None => None
  }

  /** A day's list as stored: each entry encoded, in the same position. */
  function EncodeDay(es: seq<Entry>): (r: seq<RawEntry>)
    ensures |r| == |es|
    ensures forall i :: 0 <= i < |es| ==> r[i] == EncodeEntry(es[i])
  {
    if es == [] then [] else [EncodeEntry(es[0])] + EncodeDay(es[1..])
  }

  /**
   Reads a day's stored list back. It fails exactly when some stored entry
   has an unknown tag; a successful read encodes back to the stored list.
   */
  function DecodeDay(raws: seq<RawEntry>): (r: Option<seq<Entry>>)
    ensures r.Some? <==> forall i :: 0 <= i < |raws| ==> ParseTag(raws[i].tag).Some?
    ensures r.Some? ==> EncodeDay(r.value) == raws
  {
    if raws == [] then Some([])
    else
      match DecodeEntry(raws[0])
      case None => None
      case Some(e) =>
        match DecodeDay(raws[1..])
        case None => None
        case Some(rest) => Some([e] + rest)
  }

  /** Decoding a day's encoded list recovers it, entries and order alike. */
  lemma {:induction false} DecodeEncodeDay(es: seq<Entry>)
    ensures DecodeDay(EncodeDay(es)) == Some(es)
  {
    if es != [] {
      TagRoundTrip(es[0].op);
      assert DecodeEntry(EncodeEntry(es[0])) == Some(es[0]);
      DecodeEncodeDay(es[1..]);
      assert EncodeDay(es) == [EncodeEntry(es[0])] + EncodeDay(es[1..]);
      assert EncodeDay(es)[1..] == EncodeDay(es[1..]);
      assert [es[0]] + es[1..] == es;
    }
  }

  /**
   The snapshot written after every change: the same days, each with its list
   encoded entry by entry in the same order.
   */
  function Save(s: Entries): (r: RawEntries)
    ensures r.Keys == s.Keys
    ensures forall k :: k in s ==> |r[k]| == |s[k]|
    ensures forall k, i :: k in s && 0 <= i < |s[k]| ==> r[k][i] == EncodeEntry(s[k][i])
  {
    map k | k in s :: EncodeDay(s[k])
  }

  /**
   Reads a snapshot back. It fails exactly when some stored entry has an
   unknown tag; a snapshot that reads back is the snapshot of what it read.
   */
  function Load(raw: RawEntries): (r: Option<Entries>)
    ensures r.Some? <==> forall k, i :: k in raw && 0 <= i < |raw[k]| ==> ParseTag(raw[k][i].tag).Some?
    ensures r.Some? ==> r.value.Keys == raw.Keys
    ensures r.Some? ==> Save(r.value) == raw
  {
    if forall k :: k in raw ==> DecodeDay(raw[k]).Some? then
      Some(map k | k in raw :: DecodeDay(raw[k]).value)
    else
      None
  }

  /** Every day of a saved store reads back to that day's list. */
  lemma DecodeSavedDays(s: Entries)
    ensures forall k :: k in s ==> DecodeDay(Save(s)[k]) == Some(s[k])
  {
    forall k | k in s
      ensures DecodeDay(Save(s)[k]) == Some(s[k])
    {
      assert Save(s)[k] == EncodeDay(s[k]);
      DecodeEncodeDay(s[k]);
    }
  }

  /** Loading a saved store gives back the same store. */
  lemma SaveLoadRoundTrip(s: Entries)
    ensures Load(Save(s)) == Some(s)
  {
    var raw := Save(s);
    DecodeSavedDays(s);
    var loaded := map k | k in raw :: DecodeDay(raw[k]).value;
    assert loaded == s;
  }

  /** Under the store invariant, the snapshot holds no day with an empty list. */
  lemma SaveKeepsNoEmptyDays(s: Entries)
    requires NoEmptyDays(s)
    ensures forall k :: k in Save(s) ==> |Save(s)[k]| > 0
  {
  }

  /**
   The store the session starts with: the snapshot when there is one and it
   reads back, an empty store when there is none or reading it fails. Once
   the loaded store is in place it is saved again, and that save writes back
   the snapshot that was read.
   */
  function Hydrate(slot: Option<RawEntries>): (r: Entries)
    ensures slot.Some? && Load(slot.value).Some? ==> Save(r) == slot.value
    ensures r != map[] ==> slot.Some? && Save(r) == slot.value
  {
    match slot
    case None => map[]
    case Some(raw) =>
      match Load(raw)
      case None => map[]
      case Some(s) => s
  }

  /** A session that starts from the snapshot of a store starts with that store. */
  lemma HydrateSaved(s: Entries)
    ensures Hydrate(Some(Save(s))) == s
  {
    SaveLoadRoundTrip(s);
  }
}

=== FILE: scenarios.dfy ===
/**
 Worked sessions of the ledger, stated on concrete days and amounts and
 proved from the general lemmas about the store and the total.
 */
module LedgerScenarios {
  import opened CalendarMonth
  import opened LedgerTypes
  import opened LedgerStore
  import opened LedgerTotal

  /**
   A credit of 100 on 5 March 2024 and a debit of 30 on 20 March 2024 give
   March 2024 a total of 70, and leave April 2024 at zero.
   */
  lemma MarchTotal()
    ensures var s := AddEntry(AddEntry(map[], DayKey(2024, 2, 5), Entry("a", 100.0, Add)),
                              DayKey(2024, 2, 20), Entry("b", 30.0, Subtract));
            && MonthSum(s, YearMonth(2024, 2)) == 70.0
            && MonthSum(s, YearMonth(2024, 3)) == 0.0
  {
    var empty: Entries := map[];
    var s1 := AddEntry(empty, DayKey(2024, 2, 5), Entry("a", 100.0, Add));
    var s2 := AddEntry(s1, DayKey(2024, 2, 20), Entry("b", 30.0, Subtract));
    MonthSumEmptyMonth(empty, YearMonth(2024, 2));
    MonthSumEmptyMonth(empty, YearMonth(2024, 3));
    AddShiftsTotal(empty, DayKey(2024, 2, 5), Entry("a", 100.0, Add), YearMonth(2024, 2));
    AddShiftsTotal(empty, DayKey(2024, 2, 5), Entry("a", 100.0, Add), YearMonth(2024, 3));
    AddShiftsTotal(s1, DayKey(2024, 2, 20), Entry("b", 30.0, Subtract), YearMonth(2024, 2));
    AddShiftsTotal(s1, DayKey(2024, 2, 20), Entry("b", 30.0, Subtract), YearMonth(2024, 3));
  }

  /**
   Starting empty, a credit of 50 then a debit of 20 on 10 June 2024 leave
   that day with the two entries in the order they were added, and June 2024
   with a total of 30.
   */
  lemma JuneSession()
    ensures var d := DayKey(2024, 5, 10);
            var s := AddEntry(AddEntry(map[], d, Entry("a", 50.0, Add)), d, Entry("b", 20.0, Subtract));
            && EntriesFor(s, d) == [Entry("a", 50.0, Add), Entry("b", 20.0, Subtract)]
            && MonthSum(s, YearMonth(2024, 5)) == 30.0
  {
    var d := DayKey(2024, 5, 10);
    var empty: Entries := map[];
    var s1 := AddEntry(empty, d, Entry("a", 50.0, Add));
    MonthSumEmptyMonth(empty, YearMonth(2024, 5));
    AddShiftsTotal(empty, d, Entry("a", 50.0, Add), YearMonth(2024, 5));
    AddShiftsTotal(s1, d, Entry("b", 20.0, Subtract), YearMonth(2024, 5));
  }

  /**
   Entries on the adjacent days 31 January and 1 February 2024 are kept under
   distinct days, and each counts only towards its own month.
   */
  lemma AdjacentDaysStaySeparate()
    ensures var jan := DayKey(2024, 0, 31);
            var feb := DayKey(2024, 1, 1);
            var s := AddEntry(AddEntry(map[], jan, Entry("a", 10.0, Add)), feb, Entry("b", 4.0, Add));
            && EntriesFor(s, jan) == [Entry("a", 10.0, Add)]
            && EntriesFor(s, feb) == [Entry("b", 4.0, Add)]
            && MonthSum(s, YearMonth(2024, 0)) == 10.0
            && MonthSum(s, YearMonth(2024, 1)) == 4.0
  {
    var jan := DayKey(2024, 0, 31);
    var feb := DayKey(2024, 1, 1);
    var empty: Entries := map[];
    var s1 := AddEntry(empty, jan, Entry("a", 10.0, Add));
    MonthSumEmptyMonth(empty, YearMonth(2024, 0));
    MonthSumEmptyMonth(empty, YearMonth(2024, 1));
    AddShiftsTotal(empty, jan, Entry("a", 10.0, Add), YearMonth(2024, 0));
    AddShiftsTotal(empty, jan, Entry("a", 10.0, Add), YearMonth(2024, 1));
    AddShiftsTotal(s1, feb, Entry("b", 4.0, Add), YearMonth(2024, 0));
    AddShiftsTotal(s1, feb, Entry("b", 4.0, Add), YearMonth(2024, 1));
  }

  /**
   Deleting the only entry of a day removes the day, and the month's total
   returns to what it was before the entry was added.
   */
  lemma DeleteLastEntryRemovesDay(s: Entries, k: DayKey, e: Entry, ym: YearMonth)
    requires k !in s
    requires e.value != 0.0
    ensures k !in DeleteEntry(AddEntry(s, k, e), k, e.id)
    ensures DeleteEntry(AddEntry(s, k, e), k, e.id) == s
    ensures MonthSum(DeleteEntry(AddEntry(s, k, e), k, e.id), ym) == MonthSum(s, ym)
  {
    DeleteUndoesAdd(s, k, e);
  }
}

=== FILE: store.dfy ===
/**
 The entry store's updaters: lookup of the selected day's entries, adding an
 entry to a day, and deleting entries of a day by identifier. Every updater
 takes the old store and returns a new one.
 */
module LedgerStore {
  import opened CalendarMonth
  import opened LedgerTypes

  /** The store invariant: a day present in the store has at least one entry. */
  predicate NoEmptyDays(s: Entries) {
    forall k :: k in s ==> |s[k]| > 0
  }

  /**
   The entries shown for a day, and the list an add extends: the stored list,
   with an absent day read as having no entries.
   */
  function EntriesFor(s: Entries, k: DayKey): (r: seq<Entry>)
    ensures k in s ==> r == s[k]
    ensures k !in s ==> r == []
  {
    if k in s then s[k] else []
  }

  /** Under the store invariant, a day is present exactly when it has entries to show. */
  lemma PresentIffNonEmpty(s: Entries, k: DayKey)
    requires NoEmptyDays(s)
    ensures k in s <==> EntriesFor(s, k) != []
  {
  }

  /**
   Appends `e` to the list of day `k`, creating the list when the day has
   none. The amount is never zero: the entry form rejects zero before it
   calls this.
   */
  function AddEntry(s: Entries, k: DayKey, e: Entry): (r: Entries)
    requires e.value != 0.0
    ensures r.Keys == s.Keys + {k}
    ensures |r[k]| == |EntriesFor(s, k)| + 1
    ensures r[k][|r[k]| - 1] == e
    ensures r[k][..|r[k]| - 1] == EntriesFor(s, k)
    ensures k !in s ==> r[k] == [e]
    ensures forall d :: d in s && d != k ==> r[d] == s[d]
    ensures NoEmptyDays(s) ==> NoEmptyDays(r)
  {
    s[k := EntriesFor(s, k) + [e]]
  }

  /**
   The entry form's submission: `parsed` is the number read from the input
   field, None when it does not parse. A missing or zero amount is ignored and
   leaves the store as it was; any other amount is added to day `k` as an
   entry with identifier `id` and operation `op`.
   */
  function SubmitEntry(s: Entries, k: DayKey, parsed: Option<real>, op: OperationType, id: string): (r: Entries)
    ensures parsed.None? || parsed.value == 0.0 ==> r == s
    ensures parsed.Some? && parsed.value != 0.0 ==>
              && r.Keys == s.Keys + {k}
              && EntriesFor(r, k) == EntriesFor(s, k) + [Entry(id, parsed.value, op)]
              && forall d :: d in s && d != k ==> r[d] == s[d]
  {
    match parsed
    case Some(v) =>
      if v != 0.0 then AddEntry(s, k, Entry(id, v, op)) else s
    case None => s
  }

  /** The number of entries in `es` carrying identifier `id`. */
  function Occurrences(es: seq<Entry>, id: string): nat
  {
    if es == [] then 0
    else (if es[0].id == id then 1 else 0) + Occurrences(es[1..], id)
  }

  /** The entries of `es` whose identifier differs from `id`, in their original order. */
  function RemoveById(es: seq<Entry>, id: string): (r: seq<Entry>)
    ensures forall e {:trigger e in r} :: e in r ==> e in es && e.id != id
    ensures forall e {:trigger e in es} :: e in es && e.id != id ==> e in r
    ensures |r| + Occurrences(es, id) == |es|
  {
    if es == [] then []
    else
      var rest := RemoveById(es[1..], id);
      assert forall e {:trigger e in es} :: e in es ==> e == es[0] || e in es[1..];
      if es[0].id != id then [es[0]] + rest else rest
  }

  /** Filtering distributes over concatenation, so relative order is kept. */
  lemma {:induction false} RemoveByIdAppend(a: seq<Entry>, b: seq<Entry>, id: string)
    ensures RemoveById(a + b, id) == RemoveById(a, id) + RemoveById(b, id)
  {
    if a == [] {
      assert a + b == b;
    } else {
      assert (a + b)[1..] == a[1..] + b;
      RemoveByIdAppend(a[1..], b, id);
    }
  }

  /** A list with no entry carrying `id` is left as it is. */
  lemma {:induction false} RemoveByIdAbsent(es: seq<Entry>, id: string)
    requires forall e :: e in es ==> e.id != id
    ensures RemoveById(es, id) == es
  {
    if es != [] {
      assert es[0] in es;
      assert forall e :: e in es[1..] ==> e in es;
      RemoveByIdAbsent(es[1..], id);
      assert [es[0]] + es[1..] == es;
    }
  }

  /** Filtering twice by the same identifier is filtering once. */
  lemma RemoveByIdIdempotent(es: seq<Entry>, id: string)
    ensures RemoveById(RemoveById(es, id), id) == RemoveById(es, id)
  {
    RemoveByIdAbsent(RemoveById(es, id), id);
  }

  /**
   Deletes every entry of day `k` whose identifier is `id`. When none of the
   day's entries remain, the day's key is removed instead of keeping an empty
   list.
   */
  function DeleteEntry(s: Entries, k: DayKey, id: string): (r: Entries)
    ensures forall d :: d != k ==> (d in r <==> d in s)
    ensures forall d :: d in s && d != k ==> r[d] == s[d]
    ensures k in r <==> RemoveById(EntriesFor(s, k), id) != []
    ensures EntriesFor(r, k) == RemoveById(EntriesFor(s, k), id)
    ensures k in r ==> |r[k]| > 0
    ensures NoEmptyDays(s) ==> NoEmptyDays(r)
  {
    var kept := RemoveById(EntriesFor(s, k), id);
    if |kept| > 0 then s[k := kept] else s - {k}
  }

  /** Deleting an identifier the day does not hold, or on a day with no entries, changes nothing. */
  lemma DeleteAbsentIsNoOp(s: Entries, k: DayKey, id: string)
    requires k in s ==> |s[k]| > 0
    requires forall e :: e in EntriesFor(s, k) ==> e.id != id
    ensures DeleteEntry(s, k, id) == s
  {
    RemoveByIdAbsent(EntriesFor(s, k), id);
    var r := DeleteEntry(s, k, id);
    assert r.Keys == s.Keys;
  }

  /** Deleting the same identifier a second time is a no-op. */
  lemma DeleteIdempotent(s: Entries, k: DayKey, id: string)
    ensures DeleteEntry(DeleteEntry(s, k, id), k, id) == DeleteEntry(s, k, id)
  {
    var once := DeleteEntry(s, k, id);
    RemoveByIdIdempotent(EntriesFor(s, k), id);
    var twice := DeleteEntry(once, k, id);
    assert twice.Keys == once.Keys;
  }

  /** When exactly one of the day's entries carries `id`, deletion removes exactly one entry. */
  lemma DeleteUniqueRemovesOne(s: Entries, k: DayKey, id: string)
    requires Occurrences(EntriesFor(s, k), id) == 1
    ensures |EntriesFor(DeleteEntry(s, k, id), k)| == |EntriesFor(s, k)| - 1
  {
  }

  /** Filtering an appended entry's identifier out of a list that lacked it gives back the list. */
  lemma RemoveAppendedFresh(before: seq<Entry>, e: Entry)
    requires forall x :: x in before ==> x.id != e.id
    ensures RemoveById(before + [e], e.id) == before
  {
    RemoveByIdAppend(before, [e], e.id);
    RemoveByIdAbsent(before, e.id);
    assert RemoveById([e], e.id) == [];
    assert before + [] == before;
  }

  /**
   Deleting by the identifier of an entry just added, when no earlier entry of
   that day carries the identifier, restores the store.
   */
  lemma DeleteUndoesAdd(s: Entries, k: DayKey, e: Entry)
    requires k in s ==> |s[k]| > 0
    requires e.value != 0.0
    requires forall x :: x in EntriesFor(s, k) ==> x.id != e.id
    ensures DeleteEntry(AddEntry(s, k, e), k, e.id) == s
  {
    var before := EntriesFor(s, k);
    var a := s[k := before + [e]];
    assert AddEntry(s, k, e) == a;
    RemoveAppendedFresh(before, e);
    assert RemoveById(EntriesFor(a, k), e.id) == before;
    if k in s {
      assert DeleteEntry(a, k, e.id) == a[k := before];
      assert a[k := before] == s[k := s[k]];
      assert s[k := s[k]] == s;
    } else {
      assert DeleteEntry(a, k, e.id) == a - {k};
      assert a - {k} == s;
    }
  }
}

=== FILE: total.dfy ===
/**
 The monthly total: the signed sum of every entry stored under a day of the
 displayed month, where an Add entry counts its amount and every other entry
 counts the negated amount.

 The reference meaning is `MonthSum`, a sum over the SET of stored days.
 The computation, `MonthlyTotal`, folds over the days in whatever order the
 store enumerates them and, for each day of the month, folds that day's
 entries into the running total; it is proved equal to `MonthSum` for every
 enumeration order.
 */
module LedgerTotal {
  import opened CalendarMonth
  import opened LedgerTypes
  import opened LedgerStore

  /** What one entry adds to a total. */
  function Signed(e: Entry): real {
    if e.op == Add then e.value else -e.value
  }

  /** The signed sum of a list of entries. */
  function SignedSum(es: seq<Entry>): real {
    if es == [] then 0.0 else Signed(es[0]) + SignedSum(es[1..])
  }

  /** The sum of a concatenation is the sum of the parts. */
  lemma {:induction false} SignedSumAppend(a: seq<Entry>, b: seq<Entry>)
    ensures SignedSum(a + b) == SignedSum(a) + SignedSum(b)
  {
    if a == [] {
      assert a + b == b;
    } else {
      assert (a + b)[1..] == a[1..] + b;
      SignedSumAppend(a[1..], b);
    }
  }

  /** One day's reduction: the day's entries folded into the running total `acc`, oldest first. */
  function FoldDay(acc: real, es: seq<Entry>): (r: real)
    ensures r == acc + SignedSum(es)
    decreases es
  {
    if es == [] then acc else FoldDay(acc + Signed(es[0]), es[1..])
  }

  /** What day `k` adds to the total of month `ym`. */
  function Contribution(s: Entries, k: DayKey, ym: YearMonth): real {
    if k in s && InMonth(k, ym) then SignedSum(s[k]) else 0.0
  }

  /** The sum of the contributions of the days in `ks`. */
  ghost function SumKeys(s: Entries, ks: set<DayKey>, ym: YearMonth): real
    decreases ks
  {
    if ks == {} then 0.0
    else
      var k :| k in ks;
      Contribution(s, k, ym) + SumKeys(s, ks - {k}, ym)
  }

  /** The reference monthly total: the sum over all stored days. */
  ghost function MonthSum(s: Entries, ym: YearMonth): real {
    SumKeys(s, s.Keys, ym)
  }

  /** The set sum does not depend on which day is taken out first. */
  lemma {:induction false} SumKeysRemove(s: Entries, ks: set<DayKey>, k: DayKey, ym: YearMonth)
    requires k in ks
    ensures SumKeys(s, ks, ym) == Contribution(s, k, ym) + SumKeys(s, ks - {k}, ym)
    decreases ks
  {
    var j :| j in ks && SumKeys(s, ks, ym) == Contribution(s, j, ym) + SumKeys(s, ks - {j}, ym);
    if j != k {
      SumKeysRemove(s, ks - {j}, k, ym);
      SumKeysRemove(s, ks - {k}, j, ym);
      assert ks - {j} - {k} == ks - {k} - {j};
    }
  }

  /** Two stores whose days in `ks` contribute alike have the same sum over `ks`. */
  lemma {:induction false} SumKeysFrame(s1: Entries, s2: Entries, ks: set<DayKey>, ym: YearMonth)
    requires forall k :: k in ks ==> Contribution(s1, k, ym) == Contribution(s2, k, ym)
    ensures SumKeys(s1, ks, ym) == SumKeys(s2, ks, ym)
    decreases ks
  {
    if ks != {} {
      var k :| k in ks;
      SumKeysRemove(s1, ks, k, ym);
      SumKeysRemove(s2, ks, k, ym);
      SumKeysFrame(s1, s2, ks - {k}, ym);
    }
  }

  /** Days that contribute nothing sum to zero. */
  lemma {:induction false} SumKeysZero(s: Entries, ks: set<DayKey>, ym: YearMonth)
    requires forall k :: k in ks ==> Contribution(s, k, ym) == 0.0
    ensures SumKeys(s, ks, ym) == 0.0
    decreases ks
  {
    if ks != {} {
      var k :| k in ks;
      SumKeysRemove(s, ks, k, ym);
      SumKeysZero(s, ks - {k}, ym);
    }
  }

  /** A month in which no stored day falls totals zero. */
  lemma MonthSumEmptyMonth(s: Entries, ym: YearMonth)
    requires forall k :: k in s ==> !InMonth(k, ym)
    ensures MonthSum(s, ym) == 0.0
  {
    SumKeysZero(s, s.Keys, ym);
  }

  /** Replacing day `k`'s list by `es` replaces that day's contribution and nothing else. */
  lemma MonthSumUpdate(s: Entries, k: DayKey, es: seq<Entry>, ym: YearMonth)
    ensures MonthSum(s[k := es], ym)
         == MonthSum(s, ym) - Contribution(s, k, ym) + (if InMonth(k, ym) then SignedSum(es) else 0.0)
  {
    var t := s[k := es];
    var rest := s.Keys - {k};
    assert t.Keys - {k} == rest;
    SumKeysRemove(t, t.Keys, k, ym);
    SumKeysFrame(t, s, rest, ym);
    if k in s {
      SumKeysRemove(s, s.Keys, k, ym);
    } else {
      assert s.Keys == rest;
    }
  }

  /** Removing day `k` removes that day's contribution and nothing else. */
  lemma MonthSumRemove(s: Entries, k: DayKey, ym: YearMonth)
    ensures MonthSum(s - {k}, ym) == MonthSum(s, ym) - Contribution(s, k, ym)
  {
    var t := s - {k};
    var rest := s.Keys - {k};
    assert t.Keys == rest;
    SumKeysFrame(t, s, rest, ym);
    if k in s {
      SumKeysRemove(s, s.Keys, k, ym);
    } else {
      assert s.Keys == rest;
    }
  }

  /**
   Adding an entry on a day of the displayed month moves the total by the
   entry's signed amount; adding one on any other day leaves it unchanged.
   */
  lemma AddShiftsTotal(s: Entries, k: DayKey, e: Entry, ym: YearMonth)
    requires e.value != 0.0
    ensures MonthSum(AddEntry(s, k, e), ym)
         == MonthSum(s, ym) + (if InMonth(k, ym) then Signed(e) else 0.0)
  {
    var before := EntriesFor(s, k);
    MonthSumUpdate(s, k, before + [e], ym);
    SignedSumAppend(before, [e]);
  }

  /** The entries of `es` carrying identifier `id`: those a delete by `id` removes. */
  function WithId(es: seq<Entry>, id: string): seq<Entry> {
    if es == [] then []
    else (if es[0].id == id then [es[0]] else []) + WithId(es[1..], id)
  }

  /** A list's signed sum is the sum of the entries a delete keeps plus the sum of those it removes. */
  lemma {:induction false} SignedSumSplit(es: seq<Entry>, id: string)
    ensures SignedSum(es) == SignedSum(RemoveById(es, id)) + SignedSum(WithId(es, id))
  {
    if es != [] {
      SignedSumSplit(es[1..], id);
      var kept := RemoveById(es[1..], id);
      var gone := WithId(es[1..], id);
      if es[0].id == id {
        SignedSumAppend([es[0]], gone);
      } else {
        SignedSumAppend([es[0]], kept);
        assert gone == [] + gone;
      }
    }
  }

  /**
   Deleting by identifier on a day of the displayed month moves the total by
   minus the signed sum of the entries that were removed; on any other day it
   leaves the total unchanged.
   */
  lemma DeleteShiftsTotal(s: Entries, k: DayKey, id: string, ym: YearMonth)
    ensures MonthSum(DeleteEntry(s, k, id), ym)
         == MonthSum(s, ym)
            - (if InMonth(k, ym) then SignedSum(EntriesFor(s, k)) - SignedSum(RemoveById(EntriesFor(s, k), id)) else 0.0)
    ensures MonthSum(DeleteEntry(s, k, id), ym)
         == MonthSum(s, ym) - (if InMonth(k, ym) then SignedSum(WithId(EntriesFor(s, k), id)) else 0.0)
  {
    SignedSumSplit(EntriesFor(s, k), id);
    var kept := RemoveById(EntriesFor(s, k), id);
    if |kept| > 0 {
      MonthSumUpdate(s, k, kept, ym);
    } else {
      MonthSumRemove(s, k, ym);
    }
  }

  /** The days of `keys`, as a set. */
  function KeySet(keys: seq<DayKey>): set<DayKey> {
    set k | k in keys
  }

  /** `keys` lists every stored day exactly once, as enumerating the store's keys does. */
  ghost predicate IsKeyOrder(s: Entries, keys: seq<DayKey>) {
    && (forall i, j :: 0 <= i < j < |keys| ==> keys[i] != keys[j])
    && KeySet(keys) == s.Keys
  }

  /** The entries of the days of `keys` that lie in month `ym`, day after day in the order of `keys`. */
  function MonthEntries(s: Entries, keys: seq<DayKey>, ym: YearMonth): seq<Entry>
    requires forall k :: k in keys ==> k in s
  {
    if keys == [] then []
    else (if InMonth(keys[0], ym) then s[keys[0]] else []) + MonthEntries(s, keys[1..], ym)
  }

  /**
   The outer reduction: days of `keys` folded into `acc`, skipping days outside
   the month. The nested folds add to `acc` the signed sum of the month's
   entries in the order they are visited.
   */
  function FoldMonth(s: Entries, keys: seq<DayKey>, acc: real, ym: YearMonth): (r: real)
    requires forall k :: k in keys ==> k in s
    ensures r == acc + SignedSum(MonthEntries(s, keys, ym))
    decreases keys
  {
    if keys == [] then acc
    else if InMonth(keys[0], ym) then
      SignedSumAppend(s[keys[0]], MonthEntries(s, keys[1..], ym));
      FoldMonth(s, keys[1..], FoldDay(acc, s[keys[0]]), ym)
    else
      assert [] + MonthEntries(s, keys[1..], ym) == MonthEntries(s, keys[1..], ym);
      FoldMonth(s, keys[1..], acc, ym)
  }

  /** Folding over distinct days adds exactly the set sum over those days. */
  lemma {:induction false} FoldMonthIsSum(s: Entries, keys: seq<DayKey>, acc: real, ym: YearMonth)
    requires forall k :: k in keys ==> k in s
    requires forall i, j :: 0 <= i < j < |keys| ==> keys[i] != keys[j]
    ensures FoldMonth(s, keys, acc, ym) == acc + SumKeys(s, KeySet(keys), ym)
  {
    if keys == [] {
      assert KeySet(keys) == {};
    } else {
      var k := keys[0];
      var tail := keys[1..];
      assert KeySet(keys) - {k} == KeySet(tail) by {
        forall x | x in KeySet(tail)
          ensures x != k
        {
          var j :| 0 <= j < |tail| && tail[j] == x;
          assert keys[j + 1] == x;
        }
      }
      SumKeysRemove(s, KeySet(keys), k, ym);
      FoldMonthIsSum(s, tail, if InMonth(k, ym) then FoldDay(acc, s[k]) else acc, ym);
    }
  }

  /**
   The monthly total for the displayed month `ym`, computed by folding over
   the stored days in the enumeration order `keys`. Whatever the order, it is
   the sum of the signed amounts of all entries on days of that month.
   */
  function MonthlyTotal(s: Entries, keys: seq<DayKey>, ym: YearMonth): (r: real)
    requires IsKeyOrder(s, keys)
    ensures r == MonthSum(s, ym)
  {
    FoldMonthIsSum(s, keys, 0.0, ym);
    FoldMonth(s, keys, 0.0, ym)
  }
}

=== FILE: types.dfy ===
/**
 The ledger's data model: the two kinds of operation, an entry, and the
 store mapping each day to its entries.
 */
module LedgerTypes {
  import opened CalendarMonth

  datatype Option<T> = None | Some(value: T)

  /** An entry either credits its day (Add) or debits it (Subtract). */
  datatype OperationType = Add | Subtract

  /** The string tag an operation is stored under: one of two distinct strings, one per operation. */
  function Tag(op: OperationType): (s: string)
    ensures s == "add" || s == "subtract"
    ensures s == "add" <==> op == Add
  {
    match op
    case Add => "add"
    case Subtract => "subtract"
  }

  /** Reads a stored tag back; a string that is no operation's tag is rejected. */
  function ParseTag(s: string): (r: Option<OperationType>)
    ensures r.Some? ==> Tag(r.value) == s
    ensures r.None? <==> forall op: OperationType :: Tag(op) != s
  {
    if s == "add" then Some(Add)
    else if s == "subtract" then Some(Subtract)
    else None
  }

  /** Decoding the tag of an operation recovers that operation; hence the two tags differ. */
  lemma TagRoundTrip(op: OperationType)
    ensures ParseTag(Tag(op)) == Some(op)
    ensures Tag(Add) != Tag(Subtract)
  {
  }

  /**
   One ledger record: an identifier, an amount and whether it adds or
   subtracts. Entries are values: no operation changes an entry, it is only
   ever appended or filtered out.
   */
  datatype Entry = Entry(id: string, value: real, op: OperationType)

  /** All entries, keyed by day; each day's list is in insertion order, oldest first. */
  type Entries = map<DayKey, seq<Entry>>
}
